=== FILE: README.md ===
# LogVerse data layer, modelled in Dafny

LogVerse is a single-page activity logger: a user signs in, defines activities
(a name and a colour), and tags hour cells of a monthly calendar grid with an
activity and a note. This project models the in-memory data layer of
`src/App.js` in local (demo) mode:

- `StorageService` with `localStorage` as a map from key to stored value, keyed
  per user as `user_<id>_<key>` (module `LocalStorage`);
- the demo branch of `AuthService`: sign-in with any credentials, sign-out, and
  the current user (module `Auth`);
- the `DataProvider` state (activities and a month-keyed grid of cells), its
  load-and-seed step, its four edits and the save effects that follow them
  (modules `ActivityList`, `GridData`, `DataProvider`);
- `toggleTheme` and the theme load/save effects (module `Theme`);
- the 24 `hours` labels and the five `defaultActivities` (modules `Hours`,
  `Entities`).

Everything is immutable values and pure functions; the two nested loops of
`deleteActivity` are also written as methods (`GridData.PurgeCells`,
`GridData.PurgeMonthCells`) and proved equal to the functional definition.
A state change followed by its React save effect is one function returning the
new state and the new store.

Two behaviours of the code are reproduced as written:

- The loader calls `getGridData('all')` on the month-keyed map that
  `saveGridData` stores, so it reads the month named `'all'`, not the whole
  grid. `DataProvider.RestartForgetsGrid` and `DataProvider.CellLostOnReload`
  show the effect: a grid saved without an `'all'` month comes back empty on
  the next mount. The save effect then overwrites the stored grid with `{}`.
- `updateCell` creates an empty month entry even when it only clears a cell.

`localStorage` coerces a `null` key to the string `"null"`. With no user,
`getUserKey` returns `null`, so activities, grid and theme all share that one
slot (`LocalStorage.NoUserSlotsCollide`).

## Model

| member | source | states |
|---|---|---|
| Hours.Hours | src/App.js:305-309 | there are 24 labels; index 0 is `12am`, 1..11 are `<i>am`, 12 is `12pm`, 13..23 are `<i-12>pm`; every label parses back to its own index |
| Hours.NatToStringRoundTrip | src/App.js:307-308 | the decimal rendering of the hour is non-empty, all digits, and reads back to the number |
| Hours.HourLabelRoundTrip | src/App.js:305-309 | the label of hour i parses back to i on the 12-hour clock |
| Hours.HoursDistinct | src/App.js:305-309 | the 24 labels are pairwise distinct, so each cell key names one hour |
| Entities.DefaultsHaveUniqueIds | src/App.js:311-317 | the five default activities have distinct ids |
| ActivityList.Append | src/App.js:654-656 | the new list is the old list unchanged, followed by exactly one new activity with the given id, name and colour |
| ActivityList.Update | src/App.js:659-661 | length and every id are kept; entries with the id get the new name and colour; all other entries are unchanged |
| ActivityList.UpdateAbsentIsIdentity | src/App.js:660 | updating an id no entry has returns the list unchanged |
| ActivityList.UpdateIdempotent | src/App.js:660 | applying the same update twice equals applying it once |
| ActivityList.Remove | src/App.js:664 | an activity is in the result exactly when it was in the list and its id differs; without the id the list is unchanged |
| ActivityList.RemoveConcat | src/App.js:664 | filtering distributes over concatenation, so the kept entries keep their relative order |
| ActivityList.RemoveUndoesAppend | src/App.js:654-664 | deleting a freshly appended id gives back the list before the append |
| ActivityList.AppendKeepsIdsUnique | src/App.js:654-656 | appending a fresh id keeps ids unique |
| ActivityList.UpdateKeepsIdsUnique | src/App.js:659-661 | updating keeps ids unique |
| ActivityList.RemoveKeepsIdsUnique | src/App.js:664 | deleting keeps ids unique |
| GridData.UpdateCell | src/App.js:676-691 | the month exists afterwards; a falsy activity id leaves no cell at `<date>_<hour>`, whatever the note; otherwise that cell is `{activityId, note or ''}`; every other month and every other cell is unchanged |
| GridData.EditMonth | src/App.js:683-687 | within one month, a falsy activity id removes the cell; a truthy one stores that activity with the note, or an empty note; all other cells are unchanged |
| GridData.PurgeMonth | src/App.js:667-671 | a month keeps exactly its cells whose activity id differs from the deleted one, unchanged |
| GridData.PurgeGrid | src/App.js:665-672 | every month key is kept; no remaining cell carries the deleted id; every cell with another id is still present and unchanged; no cell is added |
| GridData.PurgeMonthCells | src/App.js:667-671 | the key-by-key deleting loop over one month computes `PurgeMonth` |
| GridData.PurgeCells | src/App.js:665-673 | the loop over all months computes `PurgeGrid` |
| GridData.UpdateCellIdempotent | src/App.js:676-691 | repeating a cell update changes nothing more |
| GridData.UpdateCellLastWriteWins | src/App.js:676-691 | of two updates to the same cell only the second is visible |
| GridData.UpdateCellCommutes | src/App.js:676-691 | updates to different cells commute |
| GridData.PurgeAfterTagIsClear | src/App.js:663-691 | tagging a cell with an activity and then deleting that activity equals clearing the cell and deleting it |
| GridData.PurgeIdempotent | src/App.js:665-672 | deleting the same activity's cells twice equals once |
| LocalStorage.UserKey | src/App.js:122-126 | no key without a truthy user id; otherwise the key is `user_`, then the id, then `_` and the key |
| LocalStorage.GetUserId | src/App.js:113-119 | the user id is the text stored under `demo_user_id`, and there is none when that entry is missing |
| LocalStorage.GetUserKey | src/App.js:122-126 | no key exactly when no user is signed in; otherwise `user_<id>_<key>` for the stored user id |
| LocalStorage.GetActivities | src/App.js:129-137 | nothing saved reads as the empty list |
| LocalStorage.SaveActivities | src/App.js:140-147 | reading activities back returns the saved list; the user id and every other key are unchanged |
| LocalStorage.GetGridData | src/App.js:150-164 | nothing saved reads as the empty month |
| LocalStorage.SaveGridData | src/App.js:167-174 | every month read back afterwards is that month of the saved grid, or empty; other keys are unchanged |
| LocalStorage.GetTheme | src/App.js:177-185 | nothing saved reads as `light`; a read theme is never empty |
| LocalStorage.SaveTheme | src/App.js:188-196 | reading back returns the saved theme, or `light` for the empty string; other keys are unchanged |
| LocalStorage.SlotIsNotSessionKey | src/App.js:122-126 | a per-user slot is never `demo_user_id` or `demo_user` |
| LocalStorage.UserKeyInjective | src/App.js:122-126 | two users with equal namespaced keys are the same user |
| LocalStorage.KindsNeverCollide | src/App.js:134-195 | the activities, grid and theme keys of any two users never coincide |
| LocalStorage.SavesAreIndependent | src/App.js:134-195 | with a user signed in, saving one kind of data leaves the other two reads unchanged |
| LocalStorage.NoUserSlotsCollide | src/App.js:122-126 | without a user, saving a theme after the activities makes the activities unreadable |
| Auth.DemoUserId | src/App.js:213-214 | a demo user id is never empty |
| Auth.Signup | src/App.js:206-221 | a demo sign-up always succeeds: the new user has the generated id, the email and the timestamp, and is then the current user and the storage user |
| Auth.Login | src/App.js:223-238 | a demo login always succeeds with any credentials: the new user has the generated id, the email and the timestamp, and is then the current user and the storage user |
| Auth.DemoSignIn | src/App.js:206-238 | the returned user has the generated id, the email and the timestamp; afterwards it is the current user, its id is the storage user and all keys are namespaced by it; other keys are unchanged |
| Auth.Logout | src/App.js:240-246 | afterwards there is no current user and no user key; every other key, including saved user data, is unchanged |
| Auth.GetCurrentUser | src/App.js:248-255 | no `demo_user` entry reads as no user |
| Auth.SavedActivitiesSurviveLogout | src/App.js:240-246 | logout keeps saved activities, so signing in again with the same id reads them back; a real second demo login always gets a new id, so the data is left stored but unreachable (see `Auth.OtherUserDoesNotSeeActivities`) |
| Auth.OtherUserDoesNotSeeActivities | src/App.js:122-137 | after one demo user saves activities and signs out, a user with another id reads what was there before the first user saved |
| Theme.Toggle | src/App.js:594 | the result is `dark` exactly when the theme was `light`, and `light` for every other theme; it differs from a known theme |
| Theme.ToggleTwice | src/App.js:594 | toggling twice restores the theme exactly when it is `light` or `dark` |
| Theme.Load | src/App.js:578-592 | loading succeeds exactly when reading the theme from storage succeeds; the loaded theme is the theme read, is non-empty, is what storage reads after the save effect, and is `light` when nothing was saved |
| Theme.SavedThemeIsLoaded | src/App.js:581-592 | a non-empty theme that was saved is the theme loaded on the next mount |
| Theme.ToggleAndSave | src/App.js:588-594 | the new theme is the toggled one and storage reads it back |
| Theme.ToggleTwiceAfterLoad | src/App.js:581-594 | two toggles after loading restore the loaded theme in memory and in storage |
| DataProvider.Seed | src/App.js:636 | the seeded list is never empty: a non-empty saved list is kept, an empty one is replaced by the five defaults |
| DataProvider.SaveAll | src/App.js:642-652 | after both save effects every month reads back from the saved grid; with a user the activities read back too, and without one the grid has overwritten them in the shared slot |
| DataProvider.Load | src/App.js:631-640 | loading succeeds exactly when both reads succeed and month `'all'` is empty; the activities are the saved ones, or the defaults when none are saved; the grid is empty |
| DataProvider.Start | src/App.js:631-652 | the started state is the loaded state |
| DataProvider.AddActivity | src/App.js:654-657 | the list gets the appended activity, the grid is unchanged, and storage reads the new list back |
| DataProvider.UpdateActivity | src/App.js:659-661 | the list gets the update, the grid is unchanged, and storage reads the new list back |
| DataProvider.DeleteActivity | src/App.js:663-674 | the list loses the id, the grid loses every cell carrying it, and storage reads every new month back |
| DataProvider.UpdateCell | src/App.js:676-691 | the grid gets the cell update, the list is unchanged, and storage reads every new month back |
| DataProvider.StartSyncs | src/App.js:642-652 | with a user signed in, the store after mounting holds exactly the loaded state |
| DataProvider.ApplyKeepsSynced | src/App.js:642-691 | with a user signed in, every operation followed by its save effects keeps the store equal to the in-memory state |
| DataProvider.LoadKeepsIdsUnique | src/App.js:631-640 | loading yields unique activity ids when the saved list has them, since the defaults have unique ids |
| DataProvider.ApplyKeepsIdsUnique | src/App.js:654-674 | every operation keeps activity ids unique, provided an added activity gets a fresh id |
| DataProvider.DeleteKeepsReferences | src/App.js:663-674 | if every cell named a listed activity before a delete, it still does after it |
| DataProvider.UpdateCellKeepsReferences | src/App.js:676-691 | tagging a cell with a listed activity, or clearing it, keeps every cell naming a listed activity |
| DataProvider.StartOnEmptyStorageSeedsDefaults | src/App.js:631-640 | with nothing saved, mounting yields the five default activities and an empty grid, and saves the defaults |
| DataProvider.StartKeepsSavedActivities | src/App.js:636 | a non-empty saved list is loaded unchanged |
| DataProvider.RestartForgetsGrid | src/App.js:634 | a grid saved without an `'all'` month is loaded as empty, and storage then holds an empty grid |
| DataProvider.CellLostOnReload | src/App.js:634-690 | a cell set in month `2024-05` is in memory but is gone after the next mount |

## Left out

- The `SupabaseClient` class and every remote branch of `StorageService` and `AuthService` (src/App.js:12-101): network I/O, and its `query` is a stub that always returns no rows. The mode flag is fixed to local. In the source the flag is `SUPABASE_URL !== 'YOUR_SUPABASE_URL'`, so an unset URL selects the remote path; that is not modelled.
- `Date.now()`, `Math.random()` and `new Date().toISOString()`: the new activity id, the two parts of the demo user id and the creation timestamp are inputs. The 9-character bound on the random part is not modelled.
- `getDaysInMonth`, `generateMonthDates`, `formatDate` and the ISO date keys: thin wrappers over JavaScript `Date` and its time zones. Month and date keys are arbitrary strings here.
- React hooks, effects and promise ordering: each effect is a save right after the edit, in declaration order.
- All UI components and styles.
- JSON: values written with `JSON.stringify` are stored as structured values, so a save/read round trip needs no serialiser.
- LocalStorage.GetActivities: a stored grid or user record yields `Failure(OtherKind)`; the source parses it and returns that object as the list. Non-empty plain text yields `Failure(ParseError)`; the source throws too, unless the text happens to be valid JSON, which it then returns.
- LocalStorage.GetGridData: a stored activity list or user record yields `Failure(OtherKind)`. The source parses it and indexes it by the month key. That gives `{}` unless the key is an array index or a field name, when it gives that element or field. Non-empty plain text yields `Failure(ParseError)`, as for activities.
- LocalStorage.GetTheme: a stored structured value yields `Failure(OtherKind)`; the source never parses and returns that value's JSON text as the theme.
- Auth.GetCurrentUser: a stored activity list or grid yields `Failure(OtherKind)`; the source parses it and returns it as the user. Non-empty plain text yields `Failure(ParseError)`, as for activities.
- With a user signed in the per-user keys never collide, so the four cases above arise only without a user, when all kinds share the slot `"null"`.
- Every `localStorage` write is assumed to succeed. In the source a quota or disabled-storage error in `setItem` rejects the save, the effect ignores the rejection, and memory and storage drift apart. `DataProvider.ApplyKeepsSynced` and `DataProvider.StartSyncs` rely on writes succeeding.
- LocalStorage.GetUserId: a structured value under `demo_user_id` reads as no user; the source would return its JSON text. Only plain text is ever written there.
- DataProvider.Load: a non-empty month `'all'` yields `Failure(OtherKind)`. The source would use its cells as if they were months. The UI only builds `YYYY-MM` month keys. When a read fails, the source's `Promise.all` rejects and the provider stays in its loading state; the model returns the failure.
- ActivityList.Update: `{ ...a, name, color }` also keeps fields other than id, name and colour; activities here have only those three.
- The source copies the outer grid shallowly and mutates the inner month maps in place. The model uses value semantics and returns new maps.
- Demo sign-up and login ignore the password and never fail; there is no error path to model.

=== FILE: activity_list.dfy ===
/** The three edits the data provider makes to its activity list:
    append a new activity, rewrite one by id, and drop one by id. */
module ActivityList {
  import opened Entities

  /** addActivity's edit: a copy of the list with one new activity at the end. */
  function Append(acts: seq<Activity>, newId: string, name: string, color: string): (r: seq<Activity>)
    ensures |r| == |acts| + 1
    ensures r[..|acts|] == acts
    ensures r[|acts|] == Activity(newId, name, color)
  {
    acts + [Activity(newId, name, color)]
  }

  /** updateActivity's edit: every entry with the given id gets the new name
      and colour; every other entry is kept as it is. */
  function Update(acts: seq<Activity>, id: string, name: string, color: string): (r: seq<Activity>)
    ensures |r| == |acts|
    ensures forall i :: 0 <= i < |acts| ==> r[i].id == acts[i].id
    ensures forall i :: 0 <= i < |acts| && acts[i].id == id ==> r[i] == Activity(id, name, color)
    ensures forall i :: 0 <= i < |acts| && acts[i].id != id ==> r[i] == acts[i]
    decreases |acts|
  {
    if acts == [] then []
    else
      var a := acts[0];
      [if a.id == id then a.(name := name, color := color) else a] + Update(acts[1..], id, name, color)
  }

  /** deleteActivity's edit of the list: keeps, in order, the entries whose
      id differs from the given one. */
  function Remove(acts: seq<Activity>, id: string): (r: seq<Activity>)
    ensures forall a :: a in r <==> a in acts && a.id != id
    ensures |r| <= |acts|
    ensures !HasId(acts, id) ==> r == acts
    decreases |acts|
  {
    if acts == [] then []
    else if acts[0].id == id then Remove(acts[1..], id)
    else [acts[0]] + Remove(acts[1..], id)
  }

  /** Filtering commutes with concatenation: the survivors keep their relative order. */
  lemma {:induction false} RemoveConcat(a: seq<Activity>, b: seq<Activity>, id: string)
    ensures Remove(a + b, id) == Remove(a, id) + Remove(b, id)
    decreases |a|
  {
    if a == [] {
      assert a + b == b;
    } else {
      assert (a + b)[0] == a[0];
      assert (a + b)[1..] == a[1..] + b;
      RemoveConcat(a[1..], b, id);
    }
  }

  /** Rewriting an id no entry carries changes nothing. */
  lemma UpdateAbsentIsIdentity(acts: seq<Activity>, id: string, name: string, color: string)
    requires !HasId(acts, id)
    ensures Update(acts, id, name, color) == acts
  {
  }

  /** Deleting a freshly appended activity undoes the append. */
  lemma RemoveUndoesAppend(acts: seq<Activity>, newId: string, name: string, color: string)
    requires !HasId(acts, newId)
    ensures Remove(Append(acts, newId, name, color), newId) == acts
  {
    RemoveConcat(acts, [Activity(newId, name, color)], newId);
    assert Remove([Activity(newId, name, color)], newId) == [];
  }

  /** Rewriting an entry twice with the same values is the same as once. */
  lemma UpdateIdempotent(acts: seq<Activity>, id: string, name: string, color: string)
    ensures Update(Update(acts, id, name, color), id, name, color) == Update(acts, id, name, color)
  {
  }

  /** An append with a fresh id keeps ids unique. */
  lemma AppendKeepsIdsUnique(acts: seq<Activity>, newId: string, name: string, color: string)
    requires UniqueIds(acts)
    requires !HasId(acts, newId)
    ensures UniqueIds(Append(acts, newId, name, color))
  {
  }

  /** Rewriting by id keeps ids unique. */
  lemma UpdateKeepsIdsUnique(acts: seq<Activity>, id: string, name: string, color: string)
    requires UniqueIds(acts)
    ensures UniqueIds(Update(acts, id, name, color))
  {
  }

  /** Removing by id keeps ids unique. */
  lemma {:induction false} RemoveKeepsIdsUnique(acts: seq<Activity>, id: string)
    requires UniqueIds(acts)
    ensures UniqueIds(Remove(acts, id))
    decreases |acts|
  {
    if acts != [] {
      RemoveKeepsIdsUnique(acts[1..], id);
      var rest := Remove(acts[1..], id);
      forall a | a in rest
        ensures a.id != acts[0].id
      {
        var k :| 0 <= k < |acts[1..]| && acts[1..][k] == a;
        assert acts[k + 1] == a;
      }
    }
  }
}

=== FILE: auth.dfy ===
/** `AuthService` in demo mode: any credentials sign in as a freshly
    generated demo user, whose id and record are kept in `localStorage`.
    The clock and random source behind the id are inputs. */
module Auth {
  import opened Js
  import opened Entities
  import opened LocalStorage

  /** A demo user id: the prefix `demo_`, a timestamp, an underscore and a
      random base-36 part. The timestamp and random part are inputs. */
  function DemoUserId(stamp: string, random: string): (r: string)
    ensures r != ""
  {
    "demo_" + stamp + "_" + random
  }

  /** What a demo sign-in returns (`error` is always `null` here) and the store after it. */
  datatype SignIn = SignIn(user: User, store: Store)

  /** `signup` and `login` in demo mode, which run the same code: the password
      is ignored, a new user is built and recorded as the session. */
  function DemoSignIn(store: Store, email: string, password: string,
                      stamp: string, random: string, createdAt: string): (r: SignIn)
    ensures r.user == User(DemoUserId(stamp, random), email, createdAt)
    ensures GetCurrentUser(r.store) == Success(Some(r.user))
    ensures GetUserId(r.store) == Some(r.user.id)
    ensures forall key :: GetUserKey(r.store, key) == Some("user_" + r.user.id + "_" + key)
    ensures forall k :: k in store && k != DemoUserIdKey && k != DemoUserKey ==> k in r.store && r.store[k] == store[k]
  {
    var user := User(DemoUserId(stamp, random), email, createdAt);
    SignIn(user, store[DemoUserIdKey := Text(user.id)][DemoUserKey := Json(UserRecord(user))])
  }

  /** signup in demo mode: always succeeds and signs the new user in. */
  function Signup(store: Store, email: string, password: string,
                  stamp: string, random: string, createdAt: string): (r: SignIn)
    ensures r.user == User(DemoUserId(stamp, random), email, createdAt)
    ensures GetCurrentUser(r.store) == Success(Some(r.user))
    ensures GetUserId(r.store) == Some(r.user.id)
  {
    DemoSignIn(store, email, password, stamp, random, createdAt)
  }

  /** login in demo mode: any credentials sign in as a newly generated user. */
  function Login(store: Store, email: string, password: string,
                 stamp: string, random: string, createdAt: string): (r: SignIn)
    ensures r.user == User(DemoUserId(stamp, random), email, createdAt)
    ensures GetCurrentUser(r.store) == Success(Some(r.user))
    ensures GetUserId(r.store) == Some(r.user.id)
  {
    DemoSignIn(store, email, password, stamp, random, createdAt)
  }

  /** logout: forgets the session but keeps every user's saved data. */
  function Logout(store: Store): (r: Store)
    ensures GetCurrentUser(r) == Success(None)
    ensures forall key :: GetUserKey(r, key) == None
    ensures forall k :: k in store && k != DemoUserIdKey && k != DemoUserKey ==> k in r && r[k] == store[k]
    ensures DemoUserIdKey !in r && DemoUserKey !in r
  {
    store - {DemoUserIdKey, DemoUserKey}
  }

  /** getCurrentUser: the parsed `demo_user` record, or `null`. */
  function GetCurrentUser(store: Store): (r: Result<Option<User>>)
    ensures DemoUserKey !in store ==> r == Success(None)
  {
    if DemoUserKey !in store then Success(None)
    else match store[DemoUserKey]
      case Text(t) => if t == "" then Success(None) else Failure(ParseError)
      case Json(UserRecord(u)) => Success(Some(u))
      case Json(_) => Failure(OtherKind)
  }

  /** Saved data outlives the session: signing out and back in under the same
      id finds the activities saved before. In the app a second demo login
      always generates a new id, so the data stays stored but is no longer
      reachable; see `OtherUserDoesNotSeeActivities`. */
  lemma SavedActivitiesSurviveLogout(store: Store, email: string, password: string,
                                     stamp: string, random: string, createdAt: string,
                                     acts: seq<Activity>)
    ensures var s1 := DemoSignIn(store, email, password, stamp, random, createdAt).store;
            var s2 := Logout(SaveActivities(s1, acts));
            GetActivities(DemoSignIn(s2, email, password, stamp, random, createdAt).store) == Success(acts)
  {
  }

  /** A different demo user does not see another user's activities. */
  lemma OtherUserDoesNotSeeActivities(store: Store, acts: seq<Activity>,
                                      email: string, password: string, createdAt: string,
                                      stamp1: string, random1: string, stamp2: string, random2: string)
    requires DemoUserId(stamp1, random1) != DemoUserId(stamp2, random2)
    ensures var s1 := SaveActivities(DemoSignIn(store, email, password, stamp1, random1, createdAt).store, acts);
            var s2 := DemoSignIn(Logout(s1), email, password, stamp2, random2, createdAt).store;
            GetActivities(s2) == GetActivities(store[DemoUserIdKey := Text(DemoUserId(stamp2, random2))])
  {
  }
}

=== FILE: data_provider.dfy ===
/** `DataProvider`: the in-memory activities and grid, loaded once when the
    provider mounts, edited by four operations, and written back to storage
    by an effect after every change (modelled as a save right after the edit). */
module DataProvider {
  import opened Js
  import opened Entities
  import ActivityList
  import GridData
  import opened LocalStorage

  datatype State = State(activities: seq<Activity>, grid: Grid)

  /** The state after an operation together with the store after its save effects. */
  datatype Step = Step(state: State, store: Store)

  /** The seeding rule: an empty saved list is replaced by the defaults. */
  function Seed(saved: seq<Activity>): (r: seq<Activity>)
    ensures |r| > 0
    ensures |saved| > 0 ==> r == saved
    ensures |saved| == 0 ==> r == DefaultActivities
  {
    if |saved| > 0 then saved else DefaultActivities
  }

  /** The loader passes the month map read under month key `'all'` on as the
      whole grid. An empty (or missing) month becomes the empty grid; a
      non-empty one would be cells reinterpreted as months, which is not modelled. */
  function AllMonthAsGrid(all: Month): Result<Grid> {
    if all == map[] then Success(map[]) else Failure(OtherKind)
  }

  /** The mount effect: `getActivities()` and `getGridData('all')`, then seeding. */
  function Load(store: Store): (r: Result<State>)
    ensures r.Success? ==> |r.value.activities| > 0
    ensures r.Success? ==> r.value.grid == map[]
    ensures r.Success? <==> GetActivities(store).Success? && GetGridData(store, "all") == Success(map[])
    ensures r.Success? ==> r.value.activities == Seed(GetActivities(store).value)
  {
    match GetActivities(store)
    case Failure(e) => Failure(e)
    case Success(saved) =>
      match GetGridData(store, "all")
      case Failure(e) => Failure(e)
      case Success(all) =>
        match AllMonthAsGrid(all)
        case Failure(e) => Failure(e)
        case Success(g) => Success(State(Seed(saved), g))
  }

  /** Both save effects: activities first, then the grid. With a user the
      two land under different keys; without one the grid overwrites the
      activities in the shared slot. */
  function SaveAll(store: Store, s: State): (r: Store)
    ensures forall m :: GetGridData(r, m) == Success(MonthOf(s.grid, m))
    ensures HasUser(store) ==> GetActivities(r) == Success(s.activities)
    ensures !HasUser(store) ==> GetActivities(r) == Failure(OtherKind)
  {
    SaveGridData(SaveActivities(store, s.activities), s.grid)
  }

  /** The provider after mounting: loaded state, and the store after the two
      save effects that fire once loading finishes. */
  function Start(store: Store): (r: Result<Step>)
    ensures r.Success? <==> Load(store).Success?
    ensures r.Success? ==> r.value.state == Load(store).value
  {
    match Load(store)
    case Failure(e) => Failure(e)
    case Success(s) => Success(Step(s, SaveAll(store, s)))
  }

  /** The store holds exactly the in-memory state, as the readers see it. */
  ghost predicate Synced(store: Store, s: State) {
    && GetActivities(store) == Success(s.activities)
    && forall m :: GetGridData(store, m) == Success(MonthOf(s.grid, m))
  }

  /** Every grid cell refers to an activity in the list. */
  predicate ReferencesResolve(s: State) {
    forall m, k :: m in s.grid && k in s.grid[m] ==> HasId(s.activities, s.grid[m][k].activityId)
  }

  /** addActivity: appends a new activity, whose time-based id is an input, then saves the list. */
  function AddActivity(store: Store, s: State, newId: string, name: string, color: string): (r: Step)
    ensures r.state.activities == ActivityList.Append(s.activities, newId, name, color)
    ensures r.state.grid == s.grid
    ensures GetActivities(r.store) == Success(r.state.activities)
  {
    var acts := ActivityList.Append(s.activities, newId, name, color);
    Step(s.(activities := acts), SaveActivities(store, acts))
  }

  /** updateActivity: renames and recolours the entries with the id, then saves the list. */
  function UpdateActivity(store: Store, s: State, id: string, name: string, color: string): (r: Step)
    ensures r.state.activities == ActivityList.Update(s.activities, id, name, color)
    ensures r.state.grid == s.grid
    ensures GetActivities(r.store) == Success(r.state.activities)
  {
    var acts := ActivityList.Update(s.activities, id, name, color);
    Step(s.(activities := acts), SaveActivities(store, acts))
  }

  /** deleteActivity: drops the activity and every cell that carries it. */
  function DeleteActivity(store: Store, s: State, id: string): (r: Step)
    ensures r.state.activities == ActivityList.Remove(s.activities, id)
    ensures r.state.grid == GridData.PurgeGrid(s.grid, id)
    ensures forall m :: GetGridData(r.store, m) == Success(MonthOf(r.state.grid, m))
  {
    var s' := State(ActivityList.Remove(s.activities, id), GridData.PurgeGrid(s.grid, id));
    Step(s', SaveAll(store, s'))
  }

  /** updateCell: sets or clears one hour cell, then saves the grid. */
  function UpdateCell(store: Store, s: State, monthKey: string, dateKey: string, hour: string,
                      activityId: Option<string>, note: Option<string>): (r: Step)
    ensures r.state.activities == s.activities
    ensures r.state.grid == GridData.UpdateCell(s.grid, monthKey, dateKey, hour, activityId, note)
    ensures forall m :: GetGridData(r.store, m) == Success(MonthOf(r.state.grid, m))
  {
    var g := GridData.UpdateCell(s.grid, monthKey, dateKey, hour, activityId, note);
    Step(s.(grid := g), SaveGridData(store, g))
  }

  /** An operation the UI can invoke on the provider. */
  datatype Operation =
    | Add(newId: string, name: string, color: string)
    | Update(id: string, name: string, color: string)
    | Delete(id: string)
    | SetCell(monthKey: string, dateKey: string, hour: string, activityId: Option<string>, note: Option<string>)

  function Apply(store: Store, s: State, op: Operation): Step {
    match op
    case Add(newId, name, color) => AddActivity(store, s, newId, name, color)
    case Update(id, name, color) => UpdateActivity(store, s, id, name, color)
    case Delete(id) => DeleteActivity(store, s, id)
    case SetCell(monthKey, dateKey, hour, activityId, note) =>
      UpdateCell(store, s, monthKey, dateKey, hour, activityId, note)
  }

  /** Starting the provider with a user signed in leaves storage in step with memory. */
  lemma StartSyncs(store: Store)
    requires HasUser(store)
    requires Start(store).Success?
    ensures Synced(Start(store).value.store, Start(store).value.state)
  {
  }

  /** Write-through: with a user signed in, every operation keeps storage in
      step with memory. */
  lemma ApplyKeepsSynced(store: Store, s: State, op: Operation)
    requires HasUser(store)
    requires Synced(store, s)
    ensures Synced(Apply(store, s, op).store, Apply(store, s, op).state)
  {
  }

  /** Loading yields unique activity ids whenever the saved list has them:
      either the saved list is used, or the defaults, whose ids are unique. */
  lemma LoadKeepsIdsUnique(store: Store)
    requires Load(store).Success?
    requires UniqueIds(GetActivities(store).value)
    ensures UniqueIds(Load(store).value.activities)
  {
    DefaultsHaveUniqueIds();
  }

  /** Every operation keeps activity ids unique, provided an added activity
      gets an id not already in the list. */
  lemma ApplyKeepsIdsUnique(store: Store, s: State, op: Operation)
    requires UniqueIds(s.activities)
    requires op.Add? ==> !HasId(s.activities, op.newId)
    ensures UniqueIds(Apply(store, s, op).state.activities)
  {
    match op
    case Add(newId, name, color) =>
      ActivityList.AppendKeepsIdsUnique(s.activities, newId, name, color);
    case Update(id, name, color) =>
      ActivityList.UpdateKeepsIdsUnique(s.activities, id, name, color);
    case Delete(id) =>
      ActivityList.RemoveKeepsIdsUnique(s.activities, id);
    case SetCell(_, _, _, _, _) =>
  }

  /** Deleting an activity keeps every cell pointing at an existing activity. */
  lemma DeleteKeepsReferences(store: Store, s: State, id: string)
    requires ReferencesResolve(s)
    ensures ReferencesResolve(DeleteActivity(store, s, id).state)
  {
  }

  /** Tagging a cell with a listed activity keeps every reference resolvable. */
  lemma UpdateCellKeepsReferences(store: Store, s: State, monthKey: string, dateKey: string, hour: string,
                                  activityId: Option<string>, note: Option<string>)
    requires ReferencesResolve(s)
    requires Truthy(activityId) ==> HasId(s.activities, activityId.value)
    ensures ReferencesResolve(UpdateCell(store, s, monthKey, dateKey, hour, activityId, note).state)
  {
  }

  /** Mounting with nothing saved yields the five default activities and an
      empty grid, and saves them. */
  lemma StartOnEmptyStorageSeedsDefaults(store: Store)
    requires HasUser(store)
    requires Slot(GetUserKey(store, ActivitiesKey)) !in store
    requires Slot(GetUserKey(store, GridDataKey)) !in store
    ensures Start(store).Success?
    ensures Start(store).value.state == State(DefaultActivities, map[])
    ensures GetActivities(Start(store).value.store) == Success(DefaultActivities)
  {
  }

  /** A non-empty saved activity list is loaded as it is. */
  lemma StartKeepsSavedActivities(store: Store, acts: seq<Activity>)
    requires |acts| > 0
    requires GetActivities(store) == Success(acts)
    requires GetGridData(store, "all") == Success(map[])
    ensures Start(store).Success?
    ensures Start(store).value.state.activities == acts
  {
  }

  /** The loader reads month `'all'` of the saved grid instead of the whole
      grid, so a grid saved without that month comes back empty, and the save
      effect then overwrites the stored grid with the empty one. */
  lemma RestartForgetsGrid(store: Store, s: State)
    requires HasUser(store)
    requires Synced(store, s)
    requires "all" !in s.grid
    ensures Start(store).Success?
    ensures Start(store).value.state == State(Seed(s.activities), map[])
    ensures forall m :: GetGridData(Start(store).value.store, m) == Success(map[])
  {
  }

  /** A concrete instance: a cell set in month `2024-05` is gone after a reload. */
  lemma CellLostOnReload(store: Store, s: State)
    requires HasUser(store)
    requires Synced(store, s)
    requires "all" !in s.grid
    ensures var edited := UpdateCell(store, s, "2024-05", "2024-05-01", "9am", Some("1"), None);
            Start(edited.store).Success? &&
            Start(edited.store).value.state.grid == map[] &&
            CellKey("2024-05-01", "9am") in edited.state.grid["2024-05"]
  {
  }
}

=== FILE: entities.dfy ===
/** The entities the data layer stores: activities, grid cells and users. */
module Entities {

  /** An activity tag a grid cell may carry. */
  datatype Activity = Activity(id: string, name: string, color: string)

  /** A demo-mode user record. `createdAt` is an ISO timestamp taken as input. */
  datatype User = User(id: string, email: string, createdAt: string)

  /** One hour cell: the activity it is tagged with and a free-text note. */
  datatype Cell = Cell(activityId: string, note: string)

  /** One month of cells, keyed by `CellKey(dateKey, hour)`. */
  type Month = map<string, Cell>

  /** All months, keyed by month key (`"YYYY-MM"` in the UI). */
  type Grid = map<string, Month>

  /** The key of one cell within a month: the date key, an underscore, the hour label. */
  function CellKey(dateKey: string, hour: string): string {
    dateKey + "_" + hour
  }

  /** The cells of a month, or no cells when the month has no entry. */
  function MonthOf(g: Grid, monthKey: string): Month {
    if monthKey in g then g[monthKey] else map[]
  }

  /** The five activities a user starts with when nothing is saved. */
  const DefaultActivities: seq<Activity> := [
    Activity("1", "Sleep", "#9b59b6"),
    Activity("2", "Work", "#3498db"),
    Activity("3", "Exercise", "#e74c3c"),
    Activity("4", "Social", "#f39c12"),
    Activity("5", "Learning", "#2ecc71")
  ]

  /** No two activities share an id. */
  predicate UniqueIds(acts: seq<Activity>) {
    forall i, j :: 0 <= i < j < |acts| ==> acts[i].id != acts[j].id
  }

  /** Some activity in the list has this id. */
  predicate HasId(acts: seq<Activity>, id: string) {
    exists i :: 0 <= i < |acts| && acts[i].id == id
  }

  lemma DefaultsHaveUniqueIds()
    ensures UniqueIds(DefaultActivities)
    ensures |DefaultActivities| == 5
  {
  }
}

=== FILE: grid_data.dfy ===
/** The two edits the data provider makes to its grid: setting or clearing
    one hour cell, and dropping every cell that carries a deleted activity. */
module GridData {
  import opened Js
  import opened Entities

  /** updateCell's edit: the month entry is created if missing; a falsy
      activity id deletes the cell, otherwise the cell is set to that activity
      with the note, or an empty note when none is given. */
  function UpdateCell(g: Grid, monthKey: string, dateKey: string, hour: string,
                      activityId: Option<string>, note: Option<string>): (r: Grid)
    ensures r.Keys == g.Keys + {monthKey}
    ensures forall m :: m in g && m != monthKey ==> r[m] == g[m]
    ensures !Truthy(activityId) ==> CellKey(dateKey, hour) !in r[monthKey]
    ensures Truthy(activityId) ==>
      CellKey(dateKey, hour) in r[monthKey] &&
      r[monthKey][CellKey(dateKey, hour)] == Cell(activityId.value, OrEmpty(note))
    ensures forall k :: k != CellKey(dateKey, hour) ==>
      (k in r[monthKey] <==> k in MonthOf(g, monthKey))
    ensures forall k :: k != CellKey(dateKey, hour) && k in r[monthKey] ==>
      r[monthKey][k] == MonthOf(g, monthKey)[k]
  {
    g[monthKey := EditMonth(MonthOf(g, monthKey), CellKey(dateKey, hour), activityId, note)]
  }

  /** The inner step of `updateCell` on the month's own map. */
  function EditMonth(month: Month, key: string, activityId: Option<string>, note: Option<string>): (r: Month)
    ensures !Truthy(activityId) ==> key !in r
    ensures Truthy(activityId) ==> key in r && r[key] == Cell(activityId.value, OrEmpty(note))
    ensures forall k :: k != key ==> (k in r <==> k in month)
    ensures forall k :: k != key && k in r ==> r[k] == month[k]
  {
    if !Truthy(activityId) then month - {key}
    else month[key := Cell(activityId.value, OrEmpty(note))]
  }

  /** The cells of one month that do not carry activity `id`. */
  function PurgeMonth(month: Month, id: string): (r: Month)
    ensures forall k :: k in r ==> r[k].activityId != id
    ensures forall k :: k in r ==> k in month && r[k] == month[k]
    ensures forall k :: k in month && month[k].activityId != id ==> k in r
  {
    map k | k in month && month[k].activityId != id :: month[k]
  }

  /** The cascade of `deleteActivity(id)`: every month keeps its key and loses
      exactly the cells whose `activityId` is `id`. */
  function PurgeGrid(g: Grid, id: string): (r: Grid)
    ensures r.Keys == g.Keys
    ensures forall m, k :: m in r && k in r[m] ==> r[m][k].activityId != id
    ensures forall m, k :: m in r && k in r[m] ==> k in g[m] && r[m][k] == g[m][k]
    ensures forall m, k :: m in g && k in g[m] && g[m][k].activityId != id ==> k in r[m]
  {
    map m | m in g :: PurgeMonth(g[m], id)
  }

  /** The inner `forEach` of `deleteActivity`: walks the month's keys and
      deletes each cell that carries `id`. */
  method PurgeMonthCells(month: Month, id: string) returns (r: Month)
    ensures r == PurgeMonth(month, id)
  {
    r := month;
    var todo := month.Keys;
    while todo != {}
      invariant todo <= month.Keys
      invariant r.Keys <= month.Keys
      invariant forall k :: k in r ==> r[k] == month[k]
      invariant forall k :: k in todo ==> k in r
      invariant forall k :: k in month && k !in todo ==> (k in r <==> month[k].activityId != id)
      decreases |todo|
    {
      var k :| k in todo;
      if r[k].activityId == id {
        r := r - {k};
      }
      todo := todo - {k};
    }
  }

  /** The outer `forEach` of `deleteActivity`: purges every month in turn. */
  method PurgeCells(g: Grid, id: string) returns (r: Grid)
    ensures r == PurgeGrid(g, id)
  {
    r := g;
    var todo := g.Keys;
    while todo != {}
      invariant todo <= g.Keys
      invariant r.Keys == g.Keys
      invariant forall m :: m in todo ==> r[m] == g[m]
      invariant forall m :: m in g && m !in todo ==> r[m] == PurgeMonth(g[m], id)
      decreases |todo|
    {
      var m :| m in todo;
      var month := PurgeMonthCells(r[m], id);
      r := r[m := month];
      todo := todo - {m};
    }
  }

  /** The same cell update applied twice is the same as once. */
  lemma UpdateCellIdempotent(g: Grid, monthKey: string, dateKey: string, hour: string,
                             activityId: Option<string>, note: Option<string>)
    ensures var once := UpdateCell(g, monthKey, dateKey, hour, activityId, note);
            UpdateCell(once, monthKey, dateKey, hour, activityId, note) == once
  {
    var once := UpdateCell(g, monthKey, dateKey, hour, activityId, note);
    var twice := UpdateCell(once, monthKey, dateKey, hour, activityId, note);
    assert twice[monthKey] == once[monthKey];
  }

  /** Of two updates to the same cell only the second is visible. */
  lemma UpdateCellLastWriteWins(g: Grid, monthKey: string, dateKey: string, hour: string,
                                a1: Option<string>, n1: Option<string>,
                                a2: Option<string>, n2: Option<string>)
    ensures UpdateCell(UpdateCell(g, monthKey, dateKey, hour, a1, n1), monthKey, dateKey, hour, a2, n2)
         == UpdateCell(g, monthKey, dateKey, hour, a2, n2)
  {
    var first := UpdateCell(g, monthKey, dateKey, hour, a1, n1);
    var lhs := UpdateCell(first, monthKey, dateKey, hour, a2, n2);
    var rhs := UpdateCell(g, monthKey, dateKey, hour, a2, n2);
    assert lhs[monthKey] == rhs[monthKey];
  }

  /** Updates to cells with different keys commute. */
  lemma UpdateCellCommutes(g: Grid, m1: string, d1: string, h1: string, a1: Option<string>, n1: Option<string>,
                           m2: string, d2: string, h2: string, a2: Option<string>, n2: Option<string>)
    requires m1 != m2 || CellKey(d1, h1) != CellKey(d2, h2)
    ensures UpdateCell(UpdateCell(g, m1, d1, h1, a1, n1), m2, d2, h2, a2, n2)
         == UpdateCell(UpdateCell(g, m2, d2, h2, a2, n2), m1, d1, h1, a1, n1)
  {
    var k1, k2 := CellKey(d1, h1), CellKey(d2, h2);
    var lhs := UpdateCell(UpdateCell(g, m1, d1, h1, a1, n1), m2, d2, h2, a2, n2);
    var rhs := UpdateCell(UpdateCell(g, m2, d2, h2, a2, n2), m1, d1, h1, a1, n1);
    if m1 == m2 {
      var month := MonthOf(g, m1);
      EditMonthCommutes(month, k1, a1, n1, k2, a2, n2);
      assert lhs == g[m1 := EditMonth(EditMonth(month, k1, a1, n1), k2, a2, n2)];
      assert rhs == g[m1 := EditMonth(EditMonth(month, k2, a2, n2), k1, a1, n1)];
    } else {
      assert lhs == g[m1 := EditMonth(MonthOf(g, m1), k1, a1, n1)][m2 := EditMonth(MonthOf(g, m2), k2, a2, n2)];
      assert rhs == g[m2 := EditMonth(MonthOf(g, m2), k2, a2, n2)][m1 := EditMonth(MonthOf(g, m1), k1, a1, n1)];
    }
  }

  /** Edits of two different keys of one month commute. */
  lemma EditMonthCommutes(month: Month, k1: string, a1: Option<string>, n1: Option<string>,
                          k2: string, a2: Option<string>, n2: Option<string>)
    requires k1 != k2
    ensures EditMonth(EditMonth(month, k1, a1, n1), k2, a2, n2)
         == EditMonth(EditMonth(month, k2, a2, n2), k1, a1, n1)
  {
  }


  /** Purging an activity removes any cell just tagged with it, as if the
      cell had been cleared instead. */
  lemma PurgeAfterTagIsClear(g: Grid, monthKey: string, dateKey: string, hour: string,
                             id: string, note: Option<string>)
    ensures PurgeGrid(UpdateCell(g, monthKey, dateKey, hour, Some(id), note), id)
         == PurgeGrid(UpdateCell(g, monthKey, dateKey, hour, None, note), id)
  {
    var month := MonthOf(g, monthKey);
    var key := CellKey(dateKey, hour);
    var tagged := UpdateCell(g, monthKey, dateKey, hour, Some(id), note);
    var cleared := UpdateCell(g, monthKey, dateKey, hour, None, note);
    assert tagged == g[monthKey := EditMonth(month, key, Some(id), note)];
    assert cleared == g[monthKey := EditMonth(month, key, None, note)];
    var pt := PurgeMonth(EditMonth(month, key, Some(id), note), id);
    var pc := PurgeMonth(EditMonth(month, key, None, note), id);
    assert pt.Keys == pc.Keys;
    assert pt == pc;
    var lhs := PurgeGrid(tagged, id);
    var rhs := PurgeGrid(cleared, id);
    assert lhs.Keys == rhs.Keys;
    forall m | m in lhs
      ensures lhs[m] == rhs[m]
    {
      if m == monthKey {
        assert lhs[m] == pt;
        assert rhs[m] == pc;
      } else {
        assert tagged[m] == cleared[m];
      }
    }
  }

  /** Purging is idempotent. */
  lemma PurgeIdempotent(g: Grid, id: string)
    ensures PurgeGrid(PurgeGrid(g, id), id) == PurgeGrid(g, id)
  {
    var once := PurgeGrid(g, id);
    var twice := PurgeGrid(once, id);
    forall m | m in once
      ensures twice[m] == once[m]
    {
      assert PurgeMonth(once[m], id) == once[m];
    }
  }
}

=== FILE: hours.dfy ===
/** The 24 hour labels shown as grid rows, on a 12-hour clock:
    `12am, 1am, …, 11am, 12pm, 1pm, …, 11pm`. */
module Hours {
  import opened Js

  /** The decimal digit character for `d`. */
  function DigitChar(d: nat): char
    requires d < 10
  {
    (48 + d) as char
  }

  predicate IsDigit(c: char) {
    '0' <= c <= '9'
  }

  predicate AllDigits(s: string) {
    forall i :: 0 <= i < |s| ==> IsDigit(s[i])
  }

  /** The decimal rendering of a natural number: its digits, without leading zeros. */
  function NatToString(n: nat): string
    decreases n
  {
    if n < 10 then [DigitChar(n)] else NatToString(n / 10) + [DigitChar(n % 10)]
  }

  /** The value of a string of decimal digits (the empty string reads as 0). */
  function DigitsValue(s: string): nat
    requires AllDigits(s)
    decreases |s|
  {
    if s == [] then 0
    else DigitsValue(s[..|s| - 1]) * 10 + (s[|s| - 1] as int - '0' as int)
  }

  /** Decimal rendering is non-empty, all digits, and read back by `DigitsValue`. */
  lemma {:induction false} NatToStringRoundTrip(n: nat)
    ensures |NatToString(n)| >= 1
    ensures AllDigits(NatToString(n))
    ensures DigitsValue(NatToString(n)) == n
    decreases n
  {
    if n >= 10 {
      NatToStringRoundTrip(n / 10);
      var s := NatToString(n);
      assert s[..|s| - 1] == NatToString(n / 10);
    }
  }

  /** The label of hour `i` of the day, built as the source builds it. */
  function HourLabel(i: nat): string
    requires i < 24
  {
    var period := if i < 12 then "am" else "pm";
    var hour := if i == 0 then 12 else if i > 12 then i - 12 else i;
    NatToString(hour) + period
  }

  /** Reads a 12-hour label back to its hour of the day (0..23). */
  function ParseHourLabel(s: string): (r: Option<nat>)
    ensures r.Some? ==> r.value < 24
  {
    if |s| < 3 then None
    else
      var digits := s[..|s| - 2];
      var period := s[|s| - 2..];
      if !AllDigits(digits) || (period != "am" && period != "pm") then None
      else
        var h := DigitsValue(digits);
        if h < 1 || h > 12 then None
        else if period == "am" then Some(if h == 12 then 0 else h)
        else Some(if h == 12 then 12 else h + 12)
  }

  /** Every hour label reads back to its own hour. */
  lemma HourLabelRoundTrip(i: nat)
    requires i < 24
    ensures ParseHourLabel(HourLabel(i)) == Some(i)
  {
    var hour := if i == 0 then 12 else if i > 12 then i - 12 else i;
    var period := if i < 12 then "am" else "pm";
    NatToStringRoundTrip(hour);
    var s := HourLabel(i);
    assert s == NatToString(hour) + period;
    assert s[..|s| - 2] == NatToString(hour);
    assert s[|s| - 2..] == period;
  }

  /** The `hours` array. */
  function Hours(): (r: seq<string>)
    ensures |r| == 24
    ensures r[0] == "12am" && r[12] == "12pm"
    ensures forall i :: 1 <= i < 12 ==> r[i] == NatToString(i) + "am"
    ensures forall i :: 13 <= i < 24 ==> r[i] == NatToString(i - 12) + "pm"
    ensures forall i :: 0 <= i < 24 ==> ParseHourLabel(r[i]) == Some(i)
  {
    HoursRoundTrip();
    seq(24, i requires 0 <= i < 24 => HourLabel(i))
  }

  lemma HoursRoundTrip()
    ensures forall i :: 0 <= i < 24 ==> ParseHourLabel(HourLabel(i)) == Some(i)
  {
    forall i | 0 <= i < 24
      ensures ParseHourLabel(HourLabel(i)) == Some(i)
    {
      HourLabelRoundTrip(i);
    }
  }

  /** The 24 labels are pairwise distinct, so each names exactly one hour. */
  lemma HoursDistinct()
    ensures forall i, j :: 0 <= i < j < 24 ==> Hours()[i] != Hours()[j]
  {
  }
}

=== FILE: js.dfy ===
/** JavaScript values the data layer handles: possibly-absent strings, their
    truthiness, and the outcome of reading a stored value back. */
module Js {

  /** A value that may be `null`/`undefined` in the source. */
  datatype Option<+T> = None | Some(value: T)

  /** Why reading a stored value did not yield the expected shape:
      `ParseError` stands for `JSON.parse` throwing on raw text, `OtherKind`
      for a structured value of a different kind than the reader expects. */
  datatype ReadError = ParseError | OtherKind

  datatype Result<+T> = Success(value: T) | Failure(error: ReadError)

  /** Truthiness of a string that may be absent: absent values and the empty
      string are falsy, every other string is truthy. */
  predicate Truthy(s: Option<string>) {
    s.Some? && s.value != ""
  }

  /** The string itself when truthy, otherwise the empty string. */
  function OrEmpty(s: Option<string>): string {
    if Truthy(s) then s.value else ""
  }
}

=== FILE: local_storage.dfy ===
/** `StorageService` in local mode: per-user values kept in the browser's
    `localStorage`, which is modelled as a map from key to stored value.
    Values written with `JSON.stringify` are kept as structured `Json`
    values, so that no serialiser has to be modelled; plain strings written
    with `setItem` are kept as `Text`. */
module LocalStorage {
  import opened Js
  import opened Entities

  datatype Value = ActivityList(activities: seq<Activity>) | GridValue(grid: Grid) | UserRecord(user: User)

  datatype Stored = Text(text: string) | Json(value: Value)

  type Store = map<string, Stored>

  /** The key the demo session keeps the signed-in user's id under. */
  const DemoUserIdKey: string := "demo_user_id"
  /** The key the demo session keeps the signed-in user record under. */
  const DemoUserKey: string := "demo_user"

  const ActivitiesKey: string := "activities"
  const GridDataKey: string := "gridData"
  const ThemeKey: string := "theme"

  /** getUserId in local mode: the text stored under `demo_user_id`, if any. */
  function GetUserId(store: Store): (r: Option<string>)
    ensures DemoUserIdKey !in store ==> r == None
    ensures DemoUserIdKey in store && store[DemoUserIdKey].Text? ==> r == Some(store[DemoUserIdKey].text)
  {
    if DemoUserIdKey in store && store[DemoUserIdKey].Text? then Some(store[DemoUserIdKey].text)
    else None
  }

  /** The namespacing rule of `getUserKey` for a given user id. */
  function UserKey(userId: Option<string>, key: string): (r: Option<string>)
    ensures r.None? <==> !Truthy(userId)
    ensures r.Some? ==> |r.value| == |userId.value| + |key| + 6
    ensures r.Some? ==> r.value[..5] == "user_"
    ensures r.Some? ==> r.value[5..5 + |userId.value|] == userId.value
    ensures r.Some? ==> r.value[5 + |userId.value|..] == "_" + key
  {
    if !Truthy(userId) then None else Some("user_" + userId.value + "_" + key)
  }

  /** getUserKey: the key namespaced by the signed-in user, or none without a user. */
  function GetUserKey(store: Store, key: string): (r: Option<string>)
    ensures r.None? <==> !HasUser(store)
    ensures r.Some? ==> r.value == "user_" + GetUserId(store).value + "_" + key
  {
    UserKey(GetUserId(store), key)
  }

  /** The key `localStorage` really uses: a `null` key is coerced to `"null"`. */
  function Slot(key: Option<string>): string {
    if key.None? then "null" else key.value
  }

  /** A user is signed in, as far as storage is concerned. */
  predicate HasUser(store: Store) {
    Truthy(GetUserId(store))
  }

  /** getActivities: the saved list, or `[]` when nothing is saved. */
  function GetActivities(store: Store): (r: Result<seq<Activity>>)
    ensures Slot(GetUserKey(store, ActivitiesKey)) !in store ==> r == Success([])
  {
    var slot := Slot(GetUserKey(store, ActivitiesKey));
    if slot !in store then Success([])
    else match store[slot]
      case Text(t) => if t == "" then Success([]) else Failure(ParseError)
      case Json(ActivityList(a)) => Success(a)
      case Json(_) => Failure(OtherKind)
  }

  /** saveActivities: stores the whole activity list under the user's activities key. */
  function SaveActivities(store: Store, acts: seq<Activity>): (r: Store)
    ensures GetUserId(r) == GetUserId(store)
    ensures GetActivities(r) == Success(acts)
    ensures forall k :: k in store && k != Slot(GetUserKey(store, ActivitiesKey)) ==> k in r && r[k] == store[k]
    ensures r.Keys == store.Keys + {Slot(GetUserKey(store, ActivitiesKey))}
  {
    var slot := Slot(GetUserKey(store, ActivitiesKey));
    SlotIsNotSessionKey(store, ActivitiesKey);
    store[slot := Json(ActivityList(acts))]
  }

  /** getGridData: the given month of the saved grid, or an empty month when
      nothing is saved or the month has no entry. */
  function GetGridData(store: Store, monthKey: string): (r: Result<Month>)
    ensures Slot(GetUserKey(store, GridDataKey)) !in store ==> r == Success(map[])
  {
    var slot := Slot(GetUserKey(store, GridDataKey));
    if slot !in store then Success(map[])
    else match store[slot]
      case Text(t) => if t == "" then Success(map[]) else Failure(ParseError)
      case Json(GridValue(g)) => Success(MonthOf(g, monthKey))
      case Json(_) => Failure(OtherKind)
  }

  /** saveGridData: the whole month-keyed grid under one key. */
  function SaveGridData(store: Store, g: Grid): (r: Store)
    ensures GetUserId(r) == GetUserId(store)
    ensures forall m :: GetGridData(r, m) == Success(MonthOf(g, m))
    ensures forall k :: k in store && k != Slot(GetUserKey(store, GridDataKey)) ==> k in r && r[k] == store[k]
    ensures r.Keys == store.Keys + {Slot(GetUserKey(store, GridDataKey))}
  {
    var slot := Slot(GetUserKey(store, GridDataKey));
    SlotIsNotSessionKey(store, GridDataKey);
    store[slot := Json(GridValue(g))]
  }

  /** getTheme: the saved theme, or `'light'` when none (or `''`) is saved. */
  function GetTheme(store: Store): (r: Result<string>)
    ensures Slot(GetUserKey(store, ThemeKey)) !in store ==> r == Success("light")
    ensures r.Success? ==> r.value != ""
  {
    var slot := Slot(GetUserKey(store, ThemeKey));
    if slot !in store then Success("light")
    else match store[slot]
      case Text(t) => Success(if t == "" then "light" else t)
      case Json(_) => Failure(OtherKind)
  }

  /** saveTheme: stores the theme as plain text under the user's theme key. */
  function SaveTheme(store: Store, theme: string): (r: Store)
    ensures GetUserId(r) == GetUserId(store)
    ensures GetTheme(r) == Success(if theme == "" then "light" else theme)
    ensures forall k :: k in store && k != Slot(GetUserKey(store, ThemeKey)) ==> k in r && r[k] == store[k]
    ensures r.Keys == store.Keys + {Slot(GetUserKey(store, ThemeKey))}
  {
    var slot := Slot(GetUserKey(store, ThemeKey));
    SlotIsNotSessionKey(store, ThemeKey);
    store[slot := Text(theme)]
  }

  /** Per-user slots never overwrite the session keys. */
  lemma SlotIsNotSessionKey(store: Store, key: string)
    ensures Slot(GetUserKey(store, key)) != DemoUserIdKey
    ensures Slot(GetUserKey(store, key)) != DemoUserKey
  {
    var k := GetUserKey(store, key);
    if k.Some? {
      assert k.value[0] == 'u';
      assert DemoUserIdKey[0] == 'd' && DemoUserKey[0] == 'd';
    }
  }

  /** Two users never share a key: the namespaced key determines the user. */
  lemma UserKeyInjective(u1: string, u2: string, key: string)
    requires u1 != "" && u2 != ""
    requires UserKey(Some(u1), key) == UserKey(Some(u2), key)
    ensures u1 == u2
  {
    assert |u1| == |u2|;
  }

  /** One user's three kinds of data never share a key, whoever the users are. */
  lemma KindsNeverCollide(u1: string, u2: string)
    requires u1 != "" && u2 != ""
    ensures UserKey(Some(u1), ActivitiesKey) != UserKey(Some(u2), GridDataKey)
    ensures UserKey(Some(u1), ActivitiesKey) != UserKey(Some(u2), ThemeKey)
    ensures UserKey(Some(u1), GridDataKey) != UserKey(Some(u2), ThemeKey)
  {
    var a := "user_" + u1 + "_" + ActivitiesKey;
    var g := "user_" + u2 + "_" + GridDataKey;
    var g1 := "user_" + u1 + "_" + GridDataKey;
    var t := "user_" + u2 + "_" + ThemeKey;
    assert a[|a| - 1] == 's';
    assert g[|g| - 1] == 'a';
    assert g1[|g1| - 1] == 'a';
    assert t[|t| - 1] == 'e';
  }

  /** With a user signed in, saving one kind of data leaves the others readable as before. */
  lemma SavesAreIndependent(store: Store, acts: seq<Activity>, g: Grid, theme: string)
    requires HasUser(store)
    ensures forall m :: GetGridData(SaveActivities(store, acts), m) == GetGridData(store, m)
    ensures GetTheme(SaveActivities(store, acts)) == GetTheme(store)
    ensures GetActivities(SaveGridData(store, g)) == GetActivities(store)
    ensures GetTheme(SaveGridData(store, g)) == GetTheme(store)
    ensures GetActivities(SaveTheme(store, theme)) == GetActivities(store)
    ensures forall m :: GetGridData(SaveTheme(store, theme), m) == GetGridData(store, m)
  {
  }

  /** Without a user every kind of data lands in the one slot `"null"`:
      saving a theme makes the saved activities unreadable. */
  lemma NoUserSlotsCollide(store: Store, acts: seq<Activity>)
    requires !HasUser(store)
    ensures GetActivities(SaveTheme(SaveActivities(store, acts), "dark")) == Failure(ParseError)
  {
  }
}

=== FILE: theme.dfy ===
/** The theme preference: `ThemeProvider` loads it, toggles it and saves it
    back after every change. */
module Theme {
  import opened Js
  import opened LocalStorage

  /** The toggle: `light` becomes `dark`, and every other theme, known or
      not, becomes `light`. */
  function Toggle(t: string): (r: string)
    ensures r == "light" || r == "dark"
    ensures r == "dark" <==> t == "light"
    ensures r != t || (t != "light" && t != "dark")
  {
    if t == "light" then "dark" else "light"
  }

  /** Toggling twice restores the theme exactly when it is one of the two known themes. */
  lemma ToggleTwice(t: string)
    ensures Toggle(Toggle(t)) == t <==> t == "light" || t == "dark"
  {
  }

  /** The provider after loading: the theme read, and the store after the save
      effect has written it back. */
  datatype Loaded = Loaded(theme: string, store: Store)

  /** Loading the theme and running the save effect once. */
  function Load(store: Store): (r: Result<Loaded>)
    ensures r.Success? <==> GetTheme(store).Success?
    ensures r.Success? ==> r.value.theme == GetTheme(store).value
    ensures r.Success? ==> GetTheme(r.value.store) == Success(r.value.theme)
    ensures r.Success? ==> r.value.theme != ""
    ensures Slot(GetUserKey(store, ThemeKey)) !in store ==> r.Success? && r.value.theme == "light"
  {
    match GetTheme(store)
    case Failure(e) => Failure(e)
    case Success(t) => Success(Loaded(t, SaveTheme(store, t)))
  }

  /** A saved theme is the theme loaded on the next mount. */
  lemma SavedThemeIsLoaded(store: Store, t: string)
    requires t != ""
    ensures Load(SaveTheme(store, t)).Success?
    ensures Load(SaveTheme(store, t)).value.theme == t
  {
  }

  /** toggleTheme followed by the save effect: the theme is flipped and written back. */
  function ToggleAndSave(theme: string, store: Store): (r: Loaded)
    ensures r.theme == Toggle(theme)
    ensures GetTheme(r.store) == Success(r.theme)
  {
    var t := Toggle(theme);
    Loaded(t, SaveTheme(store, t))
  }

  /** Two toggles after loading bring back the loaded theme, in memory and in storage. */
  lemma ToggleTwiceAfterLoad(store: Store)
    requires Load(store).Success?
    requires Load(store).value.theme == "light" || Load(store).value.theme == "dark"
    ensures var l := Load(store).value;
            var twice := ToggleAndSave(ToggleAndSave(l.theme, l.store).theme, ToggleAndSave(l.theme, l.store).store);
            twice.theme == l.theme && GetTheme(twice.store) == Success(l.theme)
  {
  }
}
